=== FILE: README.md ===
# Tower game rules in Dafny

This project models the per-frame rules of a small tower-defense game built on
an entity-component-system engine. It covers the player's money and health,
buying towers on selected build sites, towers picking and shooting the nearest
target, bullets hitting targets or timing out, dead targets being removed, and
the tower menu that opens while a build site is selected.

Entities are plain records held in sequences. Every engine system is a pure
function from the entities it reads to the entities it leaves behind. A
despawn is removal from a sequence. Requested spawns and despawns take
effect at the end of the frame, as with the engine's command buffers.

Modules follow the source files:

- `Kinds` (`kinds.dfy`) holds the tower kinds and their stat table, from `src/lib.rs`.
- `Purchase` (`purchase.dfy`) holds the menu, the menu toggle and the click handler, from `src/lib.rs`.
- `Players` (`player.dfy`) holds the player, the kill reward and the leak penalty, from `src/player.rs`.
- `Towers` (`towers.dfy`) holds target selection, firing, tower spawning and button shading, from `src/tower.rs`.
- `Bullets` (`bullets.dfy`) holds the collision and lifetime passes, from `src/bullet.rs`.
- `Targets` (`targets.dfy`) holds the death pass and target motion, from `src/target.rs`.
- `Timers` (`timers.dfy`) is the once-mode timer that bullet lifetimes rely on.
- `World` (`world.dfy`) composes the passes into one frame.
- `Geometry` and `Options` are shared helpers.

Positions are vectors of exact reals. The distance between two points is a
parameter of every rule that uses it (`Geometry.Distance`), so nothing depends
on floating-point behaviour.

Notes on the code as it stands:

- Targets only slide along x by `speed * dt` (`src/target.rs:32-36`). No pass advances the waypoint index, so waypoint following is not modelled.
- The death pass emits no death event in this version of the code (`src/target.rs:24-30`). The kill reward therefore consumes a count of death events supplied as frame input.
- `tower_shooting` aims at the targets' `GlobalTransform` (`src/tower.rs:37`, `src/tower.rs:49`). The engine propagates that only after every gameplay pass, so towers aim at the positions the frame started with. `bullet_collision` reads the targets' local `Transform` (`src/bullet.rs:42`), so it sees this frame's move. `World.Frame` does the same.
- The `Target` component shown has only `speed` (`src/target.rs:4-6`), yet the leak pass reads `path_index` and the waypoint list (`src/player.rs:53`). The model gives targets an abstract `pathIndex: nat` and takes the path length as a parameter.

## Model

| member | source | states |
|---|---|---|
| `Kinds.GetTower` | src/lib.rs:128-156 | Every kind gets muzzle offset (0, 0.6, 0) and range 4.5. The cadence is positive. Potato fires fastest (below 0.5 s) and Cabbage slowest (above 0.5 s). |
| `Kinds.GetBullet` | src/lib.rs:158-183 | The bullet stores the given direction unchanged. Its speed is positive. Potato bullets are fastest and Cabbage bullets slowest. |
| `Purchase.CreateUi` | src/lib.rs:186-229 | The menu has one button per kind, with no kind repeated. No button starts affordable. Tomato, Potato and Cabbage cost 50, 80 and 110. |
| `Purchase.CreateUiCoversKinds` | src/lib.rs:187-189 | Every tower kind has a button in the menu. |
| `Purchase.CreateUiOnSelection` | src/lib.rs:233-255 | More than one root is an error. Otherwise at most one root remains, and a root exists exactly when some marker is selected. A root is created only when none existed and one is needed. When the root count does not change, the roots are unchanged. |
| `Purchase.BuyForSelection` | src/lib.rs:267-275 | Only selected markers are consumed. Final money plus the money spent on consumed markers equals the starting money, so the balance never underflows. The towers built are exactly one `SpawnTower(kind, pos)` per consumed marker, in marker order (`Built`), so equal markers each get their own tower. |
| `Purchase.BuyRunningBalance` | src/lib.rs:268-269 | Marker i is bought exactly when it is selected and the money left after the earlier purchases is at least the cost. Otherwise it is skipped and the loop goes on. |
| `Purchase.BuyBuildsAtMarker` | src/lib.rs:271-273 | Each consumed marker gets a tower of the clicked kind, built at the marker's position with that kind's stats. |
| `Purchase.BuyTowersFromMarkers` | src/lib.rs:271-273 | Every tower built is of the clicked kind and stands at a consumed marker's position. |
| `Purchase.BoughtCount` | src/lib.rs:267-274 | With k selected markers, money m and a positive cost, one click buys min(k, m / cost) towers and leaves m - bought * cost. |
| `Purchase.HandleEvents` | src/lib.rs:265-277 | Money never grows and only selected markers are consumed. With no Clicked event nothing is consumed, nothing is built and money is unchanged. |
| `Purchase.HandleEventsCharges` | src/lib.rs:265-277 | When every click costs c, the money left plus c per tower built equals the starting money. No click charges without building, and none builds without charging. |
| `Purchase.SpentIsCostTimesCount` | src/lib.rs:268-269 | The money a click spends is its cost times the number of markers it bought. |
| `Purchase.TowerButtonClicked` | src/lib.rs:257-278 | Health is unchanged and money never grows. Unselected markers always survive. Surviving markers come from the input. A frame without a click changes nothing. |
| `Purchase.HandleEventsOnlyClicks` | src/lib.rs:265-266 | Only Clicked interactions act: a frame's events have the same effect as its Clicked events alone, whatever hover or release changes come with them. |
| `Purchase.ClickedOnlyClicks` | src/lib.rs:265-266 | The whole click handler, including marker removal, gives the same outcome on a frame's events as on its Clicked events alone. `OneClickAmongOthers` uses it to fix any frame holding exactly one click. |
| `Purchase.ClicksOfOne` | src/lib.rs:265-266 | A frame whose only Clicked event is at index k filters to exactly that event. |
| `Purchase.OneClickAmongOthers` | src/lib.rs:265-277 | A frame with exactly one click among any other interaction changes buys min(k, m / cost) towers, charges that many costs and removes that many markers, as the click alone would. |
| `Purchase.BuyCharges` | src/lib.rs:268-273 | One click takes its cost once for each tower it builds. |
| `Purchase.SingleClick` | src/lib.rs:264-277 | A single click buys min(k, m / cost) towers and charges exactly that many costs. The same number of markers disappear. |
| `Purchase.BuyAtBoundary` | src/lib.rs:268-273 | With money 100 and cost 80, the purchase succeeds, leaves 20, builds the tower at the marker and removes the marker. With money 80 and cost 80, the purchase succeeds and leaves 0, because the comparison is inclusive. With money 80 and cost 81, nothing changes. |
| `Players.SpawnPlayer` | src/player.rs:24-32 | The player starts with 100 money and 10 health. |
| `Players.GiveMoneyOnKill` | src/player.rs:34-42 | n death events raise money by exactly 10 * n and leave health unchanged. |
| `Players.HurtPlayer` | src/player.rs:44-68 | With k leaked targets (path_index >= path length), final health is max(0, h - k) and money is unchanged. k targets are removed, and no leaked target remains. |
| `Players.HurtPlayerKeeps` | src/player.rs:52-54 | A target survives the leak pass exactly when it was present and its path_index is below the path length. It survives unchanged. |
| `Players.HurtPlayerAppend` | src/player.rs:52-54 | Each target is judged on its own: the leak pass over two groups keeps what the pass over each group keeps, in sequence order. With `HurtPlayerOne`, this fixes the kept targets to the targets still on the path, each once and unchanged. |
| `Players.HurtPlayerOne` | src/player.rs:53-54 | A single target is kept unchanged exactly when its path_index is below the path length. |
| `Players.HurtTargetsIgnorePlayer` | src/player.rs:52-54 | Which targets the leak pass removes does not depend on the player's health or money. |
| `Towers.SpawnTower` | src/tower.rs:83-105 | The new tower has the requested kind, the requested position and that kind's table stats. Its range is 4.5. |
| `Towers.SelectTarget` | src/tower.rs:46-53 | The result is none exactly when no target is strictly within range of the muzzle. Otherwise it is an in-range target with minimal distance, strictly nearer than every earlier candidate, so ties go to the first. |
| `Towers.NearestUnique` | src/tower.rs:51-53 | At most one index is the nearest candidate with first-wins tie breaking, so the choice is determined. |
| `Towers.Shoot` | src/tower.rs:40-79 | A tower fires exactly when its cadence timer just finished and some target is in range. The bullet starts at position + muzzle offset with a fresh 2-second once timer. It is aimed at the nearest target: spawn point + direction = that target's position. |
| `Towers.TowerShooting` | src/tower.rs:31-81 | The bullet count equals the number of towers that shoot. Every bullet spawned is the shot of some tower, and every tower that shoots contributes its bullet. |
| `Towers.TowerShootingAppend` | src/tower.rs:40-43 | Each tower fires on its own: the pass over two groups of towers is the pass over each in turn. With the one-tower case this fixes the result to each firing tower's single bullet, in tower order. |
| `Towers.GreyTowerButtons` | src/tower.rs:113-128 | Every button's affordable flag equals money >= cost. Its tint is white exactly when affordable. Kind and cost are unchanged. |
| `Towers.GreyIdempotent` | src/tower.rs:119-127 | Shading twice with the same money is the same as shading once. |
| `Towers.GreyForgetsPrevious` | src/tower.rs:119-127 | The shading depends only on kinds and costs, not on the previous affordable flags or tints. |
| `Bullets.FirstHit` | src/bullet.rs:45-50 | The result is the first target in iteration order closer than 0.3 to the bullet, or none exactly when no target is that close. |
| `Bullets.BulletCollision` | src/bullet.rs:39-53 | Each target loses exactly one health per bullet whose first hit it is, and nothing else about it changes. The bullets that stay are exactly those that touch nothing. |
| `Bullets.UnhitMembers` | src/bullet.rs:44-52 | A bullet survives the collision pass exactly when it touches no target. |
| `Bullets.CollisionDamageMatchesHits` | src/bullet.rs:44-52 | Total health lost equals the number of bullets removed. Each removed bullet deals exactly one damage and a surviving bullet deals none. |
| `Bullets.BulletDespawn` | src/bullet.rs:26-37 | Every bullet whose timer does not finish on this tick stays, with its timer advanced. Every bullet that stays is such a bullet. Exactly the bullets whose timers finish on this tick are removed, so the count drops by that number. If no timer was already finished, none is finished afterwards. |
| `Bullets.BulletDespawnAppend` | src/bullet.rs:31-36 | The pass treats each bullet on its own: despawning from two groups of bullets is despawning from each in turn, so the result is the surviving bullets in sequence order. |
| `Bullets.FiredBulletExpiresAtLifetime` | src/tower.rs:72-74 | A fired bullet's timer reports finishing at most once. It finishes exactly when the accumulated frame time reaches 2 seconds. |
| `Timers.TickOnce` | src/bullet.rs:32-33 | A tick reports "just finished" exactly when the timer was unfinished and the elapsed time reaches the duration. A finished timer is left as it is. |
| `Timers.FinishedStaysSilent` | src/bullet.rs:32-34 | Once finished, a once-mode timer never reports finishing again. |
| `Timers.FinishesExactlyWhenDue` | src/bullet.rs:32-34 | Over any run of ticks, an unexpired timer reports finishing at most once. It does so exactly when the summed ticks reach its duration. |
| `Targets.TargetDeath` | src/target.rs:24-30 | Exactly the targets with health <= 0 are removed. No survivor is dead. |
| `Targets.TargetDeathMembers` | src/target.rs:25-28 | A target survives exactly when it was present with health > 0, and it survives unchanged. |
| `Targets.TargetDeathAppend` | src/target.rs:25-28 | The pass distributes over concatenation, so the result is the surviving targets in sequence order. |
| `Targets.TargetDeathIdempotent` | src/target.rs:24-30 | A second death pass removes nothing more. |
| `Targets.MoveTargets` | src/target.rs:32-36 | Only x changes, by speed * dt. y, z, speed, path index and health are unchanged. |
| `Targets.MoveCommutesWithDeath` | src/target.rs:24-36 | Moving and the death pass commute, because motion never changes health. |
| `World.Frame` | src/tower.rs:19-27 | One gameplay frame aborts exactly when it starts with more than one menu root. Otherwise: at most one root remains, and a root exists exactly when some marker is selected. Existing towers stay as a prefix. Targets never increase. Bullets grow by at most one per tower. Health never rises. Money grows by at most the kill reward per death event. |
| `World.FrameKeepsOneRoot` | src/lib.rs:242-254 | From a world with at most one menu root, a frame never aborts and leaves at most one root, so the "too many roots" abort is unreachable from the start world. |
| `World.FrameMonotone` | src/player.rs:58-61 | Over a frame, health never rises, existing towers are kept as a prefix, and no surviving target is dead. |
| `World.FrameShadesOpenMenu` | src/tower.rs:20-27 | Under the frame's chosen order, where shading runs after the kill reward and the click handler as well as after the toggle, a menu that stays open ends the frame with every button's affordable flag matching the final money. |
| `World.ShadeBeforeClickIsStale` | src/tower.rs:19-25 | Under another order the engine allows, shading before the click: a Potato button shaded at 100 money reads affordable, a click then leaves 20, and the flag still says affordable although 20 is below the cost of 80. |

## Left out

- `src/main.rs` is not modelled: window, plugins, camera and scene setup are engine configuration. It also registers `create_ui_on_selection` and `tower_button_clicked` a second time (`src/main.rs:30-31`), beside the registrations in `TowerPlugin` (`src/tower.rs:19-27`). The model runs each of them once per frame. `World.FrameKeepsOneRoot`'s "abort is unreachable" and `Purchase.SingleClick`'s count therefore hold for a single registration only. With two registrations, a second root could be spawned before the first is applied, and a click's purchases could run twice.
- `asset_loading`, `camera_controls`, the widget layout of `create_ui`, `spawn_gameplay_ui` and `update_player_ui` are not modelled. They are asset handles, camera input, UI styling and text formatting.
- The sound and the "GAME OVER" log line in `hurt_player` are not modelled. They are side effects with no effect on game state.
- The engine's repeating cadence timer is not modelled. Whether it finished on a frame is an input per tower. Bullet lifetimes use `Timers.OnceTimer`, a model of the once-mode contract only. Pausing and repeating modes are not modelled.
- Bullet motion (`move_bullets`) is not modelled, because it needs float normalisation. Bullets keep their position in the model. Target motion uses exact reals.
- Euclidean distance, 32-bit floats, NaN ordering in `FloatOrd` and transform propagation are not modelled, beyond the one-frame lag of the targets' global transforms noted above. Distance is an abstract parameter. A bullet's world position is taken as tower position + muzzle offset, which is what its child transform composes to under a translation-only tower transform.
- `Players.GiveMoneyOnKill`: does not model the overflow of the unsigned 32-bit `money` field. Money is an unbounded natural.
- The unsigned 32-bit width of health is not modelled either. Health only decreases and is floored at 0, so it cannot overflow.
- Death events are a count supplied per frame, because the code's death pass emits none and the event type is not part of this model.
- The waypoint path is represented only by its length, because only the leak check reads it.
- Button tints are two symbolic values instead of colours. Interaction events are the buttons whose interaction changed on the frame, supplied as input, as the change-detection filter delivers them.
- The engine runs the gameplay systems in an unspecified order. `World.Frame` fixes one order, and only the shading-after-toggle constraint comes from the source.
- World.FrameShadesOpenMenu: holds only under the frame's chosen order. The source orders `grey_tower_buttons` after `create_ui_on_selection` (`src/tower.rs:22-24`) but not after `tower_button_clicked` or `give_money_on_kill` (`src/player.rs:18`). The engine may therefore shade before a click or a reward on the same frame, leaving an affordable flag stale until the next frame, as `World.ShadeBeforeClickIsStale` shows.
- Iteration order after despawns is modelled as sequence order: the survivors of a pass keep their relative order. The engine swap-removes a despawned entity's storage row, so its next-frame query order can differ. That order decides the first-in-order ties in `Towers.SelectTarget` and `Bullets.FirstHit`.
- Double despawn is not modelled. Removals are computed against the frame's starting entities and applied once, so a target that is both dead and leaked, or a bullet that both hits and expires, is removed once.

=== FILE: bullets.dfy ===
/**
  Bullets: the collision pass, in which each bullet damages at most the first
  target it touches and is then despawned, and the lifetime pass, which
  despawns a bullet once its two-second once-mode timer runs out.
 */
module Bullets {
  import opened Options
  import opened Geometry
  import opened Timers
  import opened Kinds
  import opened Targets

  /** A bullet closer than this to a target touches it. */
  const ContactDistance: real := 0.3
  /** Seconds a bullet lives if it touches nothing. */
  const BulletLifetime: real := 2.0

  /** A bullet entity: its world position, its Bullet component and its Lifetime timer. */
  datatype BulletEntity = BulletEntity(pos: Vec3, bullet: Bullet, lifetime: OnceTimer)

  predicate Touches(p: Vec3, q: Vec3, dist: Distance) {
    dist(p, q) < ContactDistance
  }

  /** The first target position, in iteration order, that the bullet at `p` touches. */
  function FirstHit(p: Vec3, ps: seq<Vec3>, dist: Distance): (r: Option<nat>)
    ensures r.Some? ==> r.value < |ps| && Touches(p, ps[r.value], dist)
    ensures r.Some? ==> forall j :: 0 <= j < r.value ==> !Touches(p, ps[j], dist)
    ensures r.None? <==> forall j :: 0 <= j < |ps| ==> !Touches(p, ps[j], dist)
    decreases |ps|
  {
    if |ps| == 0 then None
    else if Touches(p, ps[0], dist) then Some(0)
    else match FirstHit(p, ps[1..], dist)
      case None => None
      case Some(j) => Some(j + 1)
  }

  /** How many of the bullets `bs` have the target at index `j` as their first hit. */
  function HitCount(bs: seq<BulletEntity>, ps: seq<Vec3>, j: nat, dist: Distance): nat
    decreases |bs|
  {
    if |bs| == 0 then 0
    else (if FirstHit(bs[0].pos, ps, dist) == Some(j) then 1 else 0) + HitCount(bs[1..], ps, j, dist)
  }

  /** The bullets, in order, that touch none of the targets at `ps`. */
  function Unhit(bs: seq<BulletEntity>, ps: seq<Vec3>, dist: Distance): (r: seq<BulletEntity>)
    ensures |r| <= |bs|
    decreases |bs|
  {
    if |bs| == 0 then []
    else (if FirstHit(bs[0].pos, ps, dist).None? then [bs[0]] else []) + Unhit(bs[1..], ps, dist)
  }

  /** One point of damage to the target at index `k`. */
  function Damage(ts: seq<Target>, k: nat): (r: seq<Target>)
    requires k < |ts|
    ensures Positions(r) == Positions(ts)
  {
    ts[k := ts[k].(health := ts[k].health - 1)]
  }

  function TotalHealth(ts: seq<Target>): int
    decreases |ts|
  {
    if |ts| == 0 then 0 else ts[0].health + TotalHealth(ts[1..])
  }

  datatype Collision = Collision(bullets: seq<BulletEntity>, targets: seq<Target>)

  /**
    The collision pass. Damage applies at once, while the despawn of a bullet
    that hit is collected and applied when the pass ends. Targets do not move
    during the pass, so each bullet's first hit is decided by the positions
    the pass started with.
   */
  function BulletCollision(bs: seq<BulletEntity>, ts: seq<Target>, dist: Distance): (r: Collision)
    ensures |r.targets| == |ts|
    ensures forall j :: 0 <= j < |ts| ==>
      r.targets[j] == ts[j].(health := ts[j].health - HitCount(bs, Positions(ts), j, dist))
    ensures r.bullets == Unhit(bs, Positions(ts), dist)
    decreases |bs|
  {
    if |bs| == 0 then Collision([], ts)
    else
      var ps := Positions(ts);
      var hit := FirstHit(bs[0].pos, ps, dist);
      var ts1 := if hit.Some? then Damage(ts, hit.value) else ts;
      assert Positions(ts1) == ps;
      var rest := BulletCollision(bs[1..], ts1, dist);
      assert forall j :: 0 <= j < |ts| ==>
        HitCount(bs, ps, j, dist) == (if hit == Some(j) then 1 else 0) + HitCount(bs[1..], ps, j, dist);
      assert forall j :: 0 <= j < |ts| ==>
        ts1[j].health == ts[j].health - (if hit == Some(j) then 1 else 0);
      Collision(if hit.Some? then rest.bullets else [bs[0]] + rest.bullets, rest.targets)
  }

  /** The bullets that survive the collision pass are exactly those that touch no target. */
  lemma {:induction false} UnhitMembers(bs: seq<BulletEntity>, ps: seq<Vec3>, dist: Distance, b: BulletEntity)
    ensures b in Unhit(bs, ps, dist) <==> b in bs && FirstHit(b.pos, ps, dist).None?
    decreases |bs|
  {
    if |bs| > 0 {
      UnhitMembers(bs[1..], ps, dist, b);
      assert bs == [bs[0]] + bs[1..];
    }
  }

  lemma {:induction false} DamageLowersTotal(ts: seq<Target>, k: nat)
    requires k < |ts|
    ensures TotalHealth(Damage(ts, k)) == TotalHealth(ts) - 1
    decreases |ts|
  {
    var d := Damage(ts, k);
    if k == 0 {
      assert d[1..] == ts[1..];
    } else {
      DamageLowersTotal(ts[1..], k - 1);
      assert d[1..] == Damage(ts[1..], k - 1);
    }
  }

  /**
    Every bullet the collision pass removes deals exactly one point of damage,
    and a bullet that stays deals none: the health lost over all targets
    equals the number of bullets removed.
   */
  lemma {:induction false} CollisionDamageMatchesHits(bs: seq<BulletEntity>, ts: seq<Target>, dist: Distance)
    ensures var r := BulletCollision(bs, ts, dist);
      TotalHealth(ts) - TotalHealth(r.targets) == |bs| - |r.bullets|
    decreases |bs|
  {
    if |bs| > 0 {
      var hit := FirstHit(bs[0].pos, Positions(ts), dist);
      if hit.Some? {
        DamageLowersTotal(ts, hit.value);
        CollisionDamageMatchesHits(bs[1..], Damage(ts, hit.value), dist);
      } else {
        CollisionDamageMatchesHits(bs[1..], ts, dist);
      }
    }
  }

  /** Whether the bullet's lifetime runs out on a tick of `dt` seconds. */
  predicate Expires(b: BulletEntity, dt: real)
    requires dt >= 0.0
  {
    TickOnce(b.lifetime, dt).justFinished
  }

  /** The bullet with its lifetime timer advanced by `dt` seconds. */
  function Aged(b: BulletEntity, dt: real): BulletEntity
    requires dt >= 0.0
  {
    b.(lifetime := TickOnce(b.lifetime, dt).timer)
  }

  function ExpiringCount(bs: seq<BulletEntity>, dt: real): nat
    requires dt >= 0.0
    decreases |bs|
  {
    if |bs| == 0 then 0 else (if Expires(bs[0], dt) then 1 else 0) + ExpiringCount(bs[1..], dt)
  }

  /**
    The lifetime pass: every bullet's timer advances by `dt`; a bullet whose
    timer has just finished is despawned, every other bullet stays.
   */
  function BulletDespawn(bs: seq<BulletEntity>, dt: real): (r: seq<BulletEntity>)
    requires dt >= 0.0
    ensures |r| == |bs| - ExpiringCount(bs, dt)
    ensures forall i :: 0 <= i < |bs| && !Expires(bs[i], dt) ==> Aged(bs[i], dt) in r
    ensures forall k :: 0 <= k < |r| ==>
      exists i :: 0 <= i < |bs| && !Expires(bs[i], dt) && r[k] == Aged(bs[i], dt)
    ensures (forall i :: 0 <= i < |bs| ==> !bs[i].lifetime.finished) ==>
      forall i :: 0 <= i < |r| ==> !r[i].lifetime.finished
    decreases |bs|
  {
    if |bs| == 0 then []
    else (if Expires(bs[0], dt) then [] else [Aged(bs[0], dt)]) + BulletDespawn(bs[1..], dt)
  }

  /** The pass works bullet by bullet, so the survivors keep their original order. */
  lemma {:induction false} BulletDespawnAppend(a: seq<BulletEntity>, b: seq<BulletEntity>, dt: real)
    requires dt >= 0.0
    ensures BulletDespawn(a + b, dt) == BulletDespawn(a, dt) + BulletDespawn(b, dt)
    decreases |a|
  {
    if |a| == 0 {
      assert a + b == b;
    } else {
      assert (a + b)[0] == a[0];
      assert (a + b)[1..] == a[1..] + b;
      BulletDespawnAppend(a[1..], b, dt);
    }
  }

  /** A bullet as a tower fires it: at the muzzle, with a fresh lifetime. */
  function Fired(spawn: Vec3, bullet: Bullet): BulletEntity {
    BulletEntity(spawn, bullet, NewOnce(BulletLifetime))
  }

  /**
    A fired bullet's lifetime timer reports "just finished" at most once, and
    does so exactly when the accumulated frame time reaches two seconds; that
    report is what makes the lifetime pass despawn the bullet.
   */
  lemma FiredBulletExpiresAtLifetime(spawn: Vec3, bullet: Bullet, dts: seq<real>)
    requires NonNegative(dts)
    ensures TickAll(Fired(spawn, bullet).lifetime, dts).finishes == 1 <==> Sum(dts) >= BulletLifetime
    ensures TickAll(Fired(spawn, bullet).lifetime, dts).finishes <= 1
  {
    FinishesExactlyWhenDue(Fired(spawn, bullet).lifetime, dts);
  }
}

=== FILE: geometry.dfy ===
/**
  World-space positions. The engine works on 32-bit float vectors; here the
  components are exact reals, and the Euclidean distance is left abstract:
  every proximity rule receives it as a parameter of type `Distance`.
 */
module Geometry {

  datatype Vec3 = Vec3(x: real, y: real, z: real)

  function Add(a: Vec3, b: Vec3): Vec3 {
    Vec3(a.x + b.x, a.y + b.y, a.z + b.z)
  }

  function Sub(a: Vec3, b: Vec3): Vec3 {
    Vec3(a.x - b.x, a.y - b.y, a.z - b.z)
  }

  /** The distance between two points, as the engine's `Vec3::distance` computes it. */
  type Distance = (Vec3, Vec3) -> real
}

=== FILE: kinds.dfy ===
/**
  The tower kinds and their fixed stat table: for each kind, the Tower
  component a new tower receives and the Bullet component its shots carry.
 */
module Kinds {
  import opened Geometry

  datatype TowerType = Tomato | Potato | Cabbage

  /**
    The Tower component: seconds between shots of its repeating cadence timer,
    the muzzle offset from the tower's position, and the firing range.
   */
  datatype Tower = Tower(shootingInterval: real, bulletOffset: Vec3, range: real)

  /** The Bullet component: the (unnormalised) flight direction and the speed. */
  datatype Bullet = Bullet(direction: Vec3, speed: real)

  const MuzzleOffset: Vec3 := Vec3(0.0, 0.6, 0.0)
  const TowerRange: real := 4.5

  /** Every kind shares muzzle offset and range; the kinds differ only in cadence. */
  function GetTower(kind: TowerType): (r: Tower)
    ensures r.bulletOffset == MuzzleOffset && r.range == TowerRange
    ensures r.shootingInterval > 0.0
    ensures kind == Potato <==> r.shootingInterval < 0.5
    ensures kind == Cabbage <==> r.shootingInterval > 0.5
  {
    match kind
    case Tomato => Tower(0.5, MuzzleOffset, TowerRange)
    case Potato => Tower(0.1, MuzzleOffset, TowerRange)
    case Cabbage => Tower(0.8, MuzzleOffset, TowerRange)
  }

  /** The bullet keeps the direction it is given; only its speed depends on the kind. */
  function GetBullet(kind: TowerType, direction: Vec3): (r: Bullet)
    ensures r.direction == direction
    ensures r.speed > 0.0
    ensures kind == Potato <==> r.speed > 3.5
    ensures kind == Cabbage <==> r.speed < 3.5
  {
    match kind
    case Tomato => Bullet(direction, 3.5)
    case Potato => Bullet(direction, 6.5)
    case Cabbage => Bullet(direction, 1.5)
  }

  /** The purchase menu: kinds in button order, and the costs index-aligned with them. */
  const MenuKinds: seq<TowerType> := [Tomato, Potato, Cabbage]
  const MenuCosts: seq<nat> := [50, 80, 110]
}

=== FILE: options.dfy ===
/** Optional values and fallible results shared by every module of the model. */
module Options {

  /** A value that may be absent: the outcome of a search that can find nothing. */
  datatype Option<+T> = None | Some(value: T)

  /** Either a value or the reason the step could not complete. */
  datatype Result<+T, +E> = Ok(value: T) | Err(error: E)
}

=== FILE: player.dfy ===
/**
  The player singleton and the economy rules that change it: the reward for
  kills and the health lost to targets that reach the end of the path.
 */
module Players {
  import opened Targets
  import opened Seqs

  /**
    The engine stores both fields as unsigned 32-bit integers; here they are
    unbounded naturals (see the README on overflow).
   */
  datatype Player = Player(money: nat, health: nat)

  const StartMoney: nat := 100
  const StartHealth: nat := 10
  /** Money earned per death event, whatever the target. */
  const KillReward: nat := 10

  function SpawnPlayer(): (p: Player)
    ensures p.money == StartMoney && p.health == StartHealth
    ensures p.money == 100 && p.health == 10
  {
    Player(StartMoney, StartHealth)
  }

  /** Consumes `events` death events, one reward each. */
  function GiveMoneyOnKill(p: Player, events: nat): (r: Player)
    ensures r.money == p.money + KillReward * events
    ensures r.health == p.health
    decreases events
  {
    if events == 0 then p
    else GiveMoneyOnKill(p.(money := p.money + KillReward), events - 1)
  }

  /** A target has leaked when its waypoint index has run past the end of the path. */
  predicate Leaked(t: Target, pathLen: nat) {
    t.pathIndex >= pathLen
  }

  function LeakCount(ts: seq<Target>, pathLen: nat): nat
    decreases |ts|
  {
    if |ts| == 0 then 0 else (if Leaked(ts[0], pathLen) then 1 else 0) + LeakCount(ts[1..], pathLen)
  }

  function Max(a: int, b: int): int {
    if a >= b then a else b
  }

  datatype Hurt = Hurt(player: Player, targets: seq<Target>)

  /**
    The leak pass: every leaked target is despawned and costs one health,
    except that health already at zero stays at zero. Money is untouched.
   */
  function HurtPlayer(p: Player, ts: seq<Target>, pathLen: nat): (r: Hurt)
    ensures r.player.money == p.money
    ensures r.player.health == Max(0, p.health - LeakCount(ts, pathLen))
    ensures |r.targets| == |ts| - LeakCount(ts, pathLen)
    ensures forall i :: 0 <= i < |r.targets| ==> !Leaked(r.targets[i], pathLen)
    decreases |ts|
  {
    if |ts| == 0 then Hurt(p, [])
    else
      var leak := Leaked(ts[0], pathLen);
      var p1 := if leak && p.health > 0 then p.(health := p.health - 1) else p;
      var rest := HurtPlayer(p1, ts[1..], pathLen);
      Hurt(rest.player, if leak then rest.targets else [ts[0]] + rest.targets)
  }

  /** The targets the leak pass keeps are exactly the ones still on the path, unchanged. */
  lemma {:induction false} HurtPlayerKeeps(p: Player, ts: seq<Target>, pathLen: nat, t: Target)
    ensures t in HurtPlayer(p, ts, pathLen).targets <==> t in ts && !Leaked(t, pathLen)
    decreases |ts|
  {
    if |ts| > 0 {
      var leak := Leaked(ts[0], pathLen);
      var p1 := if leak && p.health > 0 then p.(health := p.health - 1) else p;
      HurtPlayerKeeps(p1, ts[1..], pathLen, t);
      assert ts == [ts[0]] + ts[1..];
    }
  }

  /** Which targets the leak pass keeps does not depend on the player's state. */
  lemma {:induction false} HurtTargetsIgnorePlayer(p: Player, q: Player, ts: seq<Target>, pathLen: nat)
    ensures HurtPlayer(p, ts, pathLen).targets == HurtPlayer(q, ts, pathLen).targets
    decreases |ts|
  {
    if |ts| > 0 {
      var leak := Leaked(ts[0], pathLen);
      var p1 := if leak && p.health > 0 then p.(health := p.health - 1) else p;
      var q1 := if leak && q.health > 0 then q.(health := q.health - 1) else q;
      HurtTargetsIgnorePlayer(p1, q1, ts[1..], pathLen);
    }
  }

  /**
    Each target is judged on its own: the leak pass over two groups of targets
    keeps what the pass over each group keeps, in sequence order. With the
    one-target case (kept exactly when not leaked) this fixes the result to
    the targets still on the path, each once, unchanged and in order.
   */
  lemma {:induction false} HurtPlayerAppend(p: Player, a: seq<Target>, b: seq<Target>, pathLen: nat)
    ensures HurtPlayer(p, a + b, pathLen).targets
         == HurtPlayer(p, a, pathLen).targets + HurtPlayer(p, b, pathLen).targets
    decreases |a|
  {
    if |a| == 0 {
      assert a + b == b;
    } else {
      TailOfAppend(a, b);
      var leak := Leaked(a[0], pathLen);
      var p1 := if leak && p.health > 0 then p.(health := p.health - 1) else p;
      HurtPlayerAppend(p1, a[1..], b, pathLen);
      HurtTargetsIgnorePlayer(p1, p, b, pathLen);
      if !leak {
        AppendAssoc([a[0]], HurtPlayer(p1, a[1..], pathLen).targets, HurtPlayer(p, b, pathLen).targets);
      }
    }
  }

  /** One target is kept, unchanged, exactly when it has not leaked. */
  lemma HurtPlayerOne(p: Player, t: Target, pathLen: nat)
    ensures HurtPlayer(p, [t], pathLen).targets == if Leaked(t, pathLen) then [] else [t]
  {
  }
}

=== FILE: purchase.dfy ===
/**
  The purchase flow: the tower menu that appears while a build site is
  selected, and the click handler that turns selected build sites into towers
  while the player's money covers the cost.
 */
module Purchase {
  import opened Options
  import opened Geometry
  import opened Kinds
  import opened Towers
  import opened Players

  /** A build-site marker: whether the picking layer reports it selected, and where it stands. */
  datatype Marker = Marker(selected: bool, pos: Vec3)

  datatype Interaction = Clicked | Hovered | NoInteraction

  /** A tower button whose interaction changed on this frame, with its kind and state. */
  datatype ButtonEvent = ButtonEvent(interaction: Interaction, kind: TowerType, state: TowerButtonState)

  /** The root node of the tower menu and the buttons under it. */
  datatype UiRoot = UiRoot(buttons: seq<TowerButton>)

  /** More than one menu root exists: the engine aborts the frame. */
  datatype UiError = TooManyRoots

  /** The tower menu: one button per kind, in menu order, none yet marked affordable. */
  function CreateUi(): (r: seq<TowerButton>)
    ensures |r| == |MenuKinds|
    ensures forall i, j :: 0 <= i < j < |r| ==> r[i].kind != r[j].kind
    ensures forall i :: 0 <= i < |r| ==> !r[i].state.affordable && r[i].state.cost > 0
    ensures forall i :: 0 <= i < |r| ==>
      r[i].state.cost == match r[i].kind case Tomato => 50 case Potato => 80 case Cabbage => 110
  {
    seq(|MenuKinds|, i requires 0 <= i < |MenuKinds| =>
      TowerButton(MenuKinds[i], TowerButtonState(MenuCosts[i], false), White))
  }

  /** Every kind can be bought from the menu. */
  lemma CreateUiCoversKinds(kind: TowerType)
    ensures exists i :: 0 <= i < |CreateUi()| && CreateUi()[i].kind == kind
  {
    var ui := CreateUi();
    match kind
    case Tomato => assert ui[0].kind == kind;
    case Potato => assert ui[1].kind == kind;
    case Cabbage => assert ui[2].kind == kind;
  }

  predicate AnySelected(ms: seq<Marker>) {
    exists i :: 0 <= i < |ms| && ms[i].selected
  }

  /**
    The menu toggle. With no root and some marker selected, the menu is
    created; with a root and no marker selected, it is removed; otherwise
    nothing changes. More than one root is an error.
   */
  function CreateUiOnSelection(roots: seq<UiRoot>, ms: seq<Marker>): (r: Result<seq<UiRoot>, UiError>)
    ensures r.Err? <==> |roots| > 1
    ensures r.Ok? ==> |r.value| <= 1 && (|r.value| == 1 <==> AnySelected(ms))
    ensures r.Ok? && |roots| == 0 && AnySelected(ms) ==> r.value == [UiRoot(CreateUi())]
    ensures r.Ok? && |r.value| == |roots| ==> r.value == roots
  {
    if |roots| > 1 then Err(TooManyRoots)
    else if |roots| == 1 then (if AnySelected(ms) then Ok(roots) else Ok([]))
    else if AnySelected(ms) then Ok([UiRoot(CreateUi())])
    else Ok([])
  }

  /** Money spent on the markers flagged in `bought`, at `cost` each. */
  function Spent(cost: nat, bought: seq<bool>): nat
    decreases |bought|
  {
    if |bought| == 0 then 0 else (if bought[0] then cost else 0) + Spent(cost, bought[1..])
  }

  function TrueCount(flags: seq<bool>): nat
    decreases |flags|
  {
    if |flags| == 0 then 0 else (if flags[0] then 1 else 0) + TrueCount(flags[1..])
  }

  function SelectedCount(ms: seq<Marker>): nat
    decreases |ms|
  {
    if |ms| == 0 then 0 else (if ms[0].selected then 1 else 0) + SelectedCount(ms[1..])
  }

  /** The money left, which markers were consumed, and the towers built in their place. */
  datatype Purchase = Purchase(money: nat, consumed: seq<bool>, towers: seq<TowerEntity>)

  lemma SpentCons(cost: nat, b: bool, flags: seq<bool>, i: nat)
    requires i <= |flags|
    ensures Spent(cost, ([b] + flags)[..i + 1]) == (if b then cost else 0) + Spent(cost, flags[..i])
  {
    assert ([b] + flags)[..i + 1] == [b] + flags[..i];
    assert ([b] + flags[..i])[1..] == flags[..i];
  }

  /** One tower of `kind` at each consumed marker, in marker order. */
  function Built(kind: TowerType, ms: seq<Marker>, consumed: seq<bool>): seq<TowerEntity>
    requires |consumed| == |ms|
    decreases |ms|
  {
    if |ms| == 0 then []
    else (if consumed[0] then [SpawnTower(kind, ms[0].pos)] else []) + Built(kind, ms[1..], consumed[1..])
  }

  /**
    One click on a button of `kind` costing `cost`: the markers are visited in
    order, and a selected marker is bought whenever the running balance still
    covers the cost. A bought marker is consumed and a tower of the button's
    kind is built at its position.
   */
  function BuyForSelection(money: nat, cost: nat, kind: TowerType, ms: seq<Marker>): (r: Purchase)
    ensures |r.consumed| == |ms|
    ensures forall i :: 0 <= i < |ms| && r.consumed[i] ==> ms[i].selected
    ensures r.money + Spent(cost, r.consumed) == money
    ensures |r.towers| == TrueCount(r.consumed)
    ensures r.towers == Built(kind, ms, r.consumed)
    decreases |ms|
  {
    if |ms| == 0 then Purchase(money, [], [])
    else
      var buy := ms[0].selected && money >= cost;
      var rest := BuyForSelection(if buy then money - cost else money, cost, kind, ms[1..]);
      var consumed := [buy] + rest.consumed;
      assert consumed[1..] == rest.consumed;
      Purchase(rest.money, consumed,
        if buy then [SpawnTower(kind, ms[0].pos)] + rest.towers else rest.towers)
  }

  /**
    Marker `i` is bought exactly when it is selected and the money left after
    the purchases before it still covers the cost.
   */
  lemma {:induction false} BuyRunningBalance(money: nat, cost: nat, kind: TowerType, ms: seq<Marker>, i: nat)
    requires i < |ms|
    ensures var r := BuyForSelection(money, cost, kind, ms);
      r.consumed[i] <==> ms[i].selected && money - Spent(cost, r.consumed[..i]) >= cost
    decreases |ms|
  {
    var r := BuyForSelection(money, cost, kind, ms);
    if i == 0 {
      assert r.consumed[..0] == [];
    } else {
      var buy := ms[0].selected && money >= cost;
      var money1 := if buy then money - cost else money;
      var rest := BuyForSelection(money1, cost, kind, ms[1..]);
      BuyRunningBalance(money1, cost, kind, ms[1..], i - 1);
      assert r.consumed == [buy] + rest.consumed;
      SpentCons(cost, buy, rest.consumed, i - 1);
    }
  }

  /** Every consumed marker has a tower of the clicked kind built at its position. */
  lemma {:induction false} BuyBuildsAtMarker(money: nat, cost: nat, kind: TowerType, ms: seq<Marker>, i: nat)
    requires i < |ms|
    requires BuyForSelection(money, cost, kind, ms).consumed[i]
    ensures SpawnTower(kind, ms[i].pos) in BuyForSelection(money, cost, kind, ms).towers
    decreases |ms|
  {
    if i > 0 {
      var buy := ms[0].selected && money >= cost;
      BuyBuildsAtMarker(if buy then money - cost else money, cost, kind, ms[1..], i - 1);
    }
  }

  /** Every tower built stands at a consumed marker and is of the clicked kind. */
  lemma {:induction false} BuyTowersFromMarkers(money: nat, cost: nat, kind: TowerType, ms: seq<Marker>, t: TowerEntity)
    requires t in BuyForSelection(money, cost, kind, ms).towers
    ensures exists i :: 0 <= i < |ms| && BuyForSelection(money, cost, kind, ms).consumed[i] && t == SpawnTower(kind, ms[i].pos)
    decreases |ms|
  {
    var r := BuyForSelection(money, cost, kind, ms);
    var buy := ms[0].selected && money >= cost;
    var rest := BuyForSelection(if buy then money - cost else money, cost, kind, ms[1..]);
    if buy && t == SpawnTower(kind, ms[0].pos) {
      assert r.consumed[0];
    } else {
      BuyTowersFromMarkers(if buy then money - cost else money, cost, kind, ms[1..], t);
      var j :| 0 <= j < |ms| - 1 && rest.consumed[j] && t == SpawnTower(kind, ms[1..][j].pos);
      assert r.consumed[j + 1];
    }
  }

  function Min(a: int, b: int): int {
    if a <= b then a else b
  }

  /** Integer division is determined by quotient and remainder. */
  lemma DivUnique(m: int, c: int, q: int, s: int)
    requires c > 0 && 0 <= s < c && m == q * c + s
    ensures m / c == q
  {
    var q', s' := m / c, m % c;
    assert m == q' * c + s';
    assert (q - q') * c == s' - s;
    MulAwayFromZero(q - q', c);
  }

  lemma MulAwayFromZero(d: int, c: int)
    requires c > 0
    ensures d >= 1 ==> d * c >= c
    ensures d <= -1 ==> d * c <= -c
  {
    if d >= 1 {
      assert (d - 1) * c >= 0;
    } else if d <= -1 {
      assert (-d - 1) * c >= 0;
    }
  }

  lemma DivStep(m: nat, c: nat)
    requires m >= c > 0
    ensures (m - c) / c == m / c - 1
  {
    var q, s := (m - c) / c, (m - c) % c;
    assert m - c == q * c + s;
    assert m == (q + 1) * c + s;
    DivUnique(m, c, q + 1, s);
  }

  /** The arithmetic of one loop step of `BoughtCount`, apart from any sequence reasoning. */
  lemma BoughtStep(money: nat, cost: nat, selected: bool, n1: nat, k1: nat, left: int)
    requires cost > 0
    requires var money1 := if selected && money >= cost then money - cost else money;
      n1 == Min(k1, money1 / cost) && left == money1 - n1 * cost
    ensures var buy := selected && money >= cost;
      var n := n1 + (if buy then 1 else 0);
      n == Min(k1 + (if selected then 1 else 0), money / cost) && left == money - n * cost
  {
    if selected && money >= cost {
      DivStep(money, cost);
      assert (n1 + 1) * cost == n1 * cost + cost;
    } else if selected {
      DivUnique(money, cost, 0, money);
    }
  }

  /**
    With `k` selected markers and starting money `m`, one click buys
    `min(k, m / cost)` towers and leaves `m - bought * cost`.
   */
  lemma {:induction false} BoughtCount(money: nat, cost: nat, kind: TowerType, ms: seq<Marker>)
    requires cost > 0
    ensures var r := BuyForSelection(money, cost, kind, ms);
      && |r.towers| == Min(SelectedCount(ms), money / cost)
      && r.money == money - |r.towers| * cost
    decreases |ms|
  {
    if |ms| > 0 {
      var r := BuyForSelection(money, cost, kind, ms);
      var buy := ms[0].selected && money >= cost;
      var money1 := if buy then money - cost else money;
      var rest := BuyForSelection(money1, cost, kind, ms[1..]);
      BoughtCount(money1, cost, kind, ms[1..]);
      assert r.money == rest.money;
      assert |r.towers| == |rest.towers| + (if buy then 1 else 0);
      assert SelectedCount(ms) == SelectedCount(ms[1..]) + (if ms[0].selected then 1 else 0);
      BoughtStep(money, cost, ms[0].selected, |rest.towers|, SelectedCount(ms[1..]), rest.money);
    }
  }

  function Falses(n: nat): (r: seq<bool>)
    ensures |r| == n && forall i :: 0 <= i < n ==> !r[i]
  {
    seq(n, i => false)
  }

  /** A marker is consumed when any click consumed it. */
  function Either(a: seq<bool>, b: seq<bool>): (r: seq<bool>)
    requires |a| == |b|
    ensures |r| == |a| && forall i :: 0 <= i < |a| ==> (r[i] <==> a[i] || b[i])
  {
    seq(|a|, i requires 0 <= i < |a| => a[i] || b[i])
  }

  predicate IsClick(e: ButtonEvent) {
    e.interaction == Clicked
  }

  /**
    All button events of one frame, in order. Despawns are deferred to the
    end of the frame, so every click visits the markers the frame started
    with; only the money carries over from one click to the next.
   */
  function HandleEvents(money: nat, events: seq<ButtonEvent>, ms: seq<Marker>): (r: Purchase)
    ensures |r.consumed| == |ms|
    ensures r.money <= money
    ensures forall i :: 0 <= i < |ms| && r.consumed[i] ==> ms[i].selected
    ensures (forall j :: 0 <= j < |events| ==> !IsClick(events[j])) ==> r == Purchase(money, Falses(|ms|), [])
    decreases |events|
  {
    if |events| == 0 then Purchase(money, Falses(|ms|), [])
    else if IsClick(events[0]) then
      var e := events[0];
      var p := BuyForSelection(money, e.state.cost, e.kind, ms);
      var rest := HandleEvents(p.money, events[1..], ms);
      Purchase(rest.money, Either(p.consumed, rest.consumed), p.towers + rest.towers)
    else HandleEvents(money, events[1..], ms)
  }

  /** Each bought marker costs the same amount. */
  lemma {:induction false} SpentIsCostTimesCount(cost: nat, bought: seq<bool>)
    ensures Spent(cost, bought) == cost * TrueCount(bought)
    decreases |bought|
  {
    if |bought| > 0 {
      SpentIsCostTimesCount(cost, bought[1..]);
      MulSucc(cost, TrueCount(bought[1..]), if bought[0] then 1 else 0);
    }
  }

  /** One click charges its cost once per tower it builds. */
  lemma BuyCharges(money: nat, cost: nat, kind: TowerType, ms: seq<Marker>)
    ensures BuyForSelection(money, cost, kind, ms).money + cost * |BuyForSelection(money, cost, kind, ms).towers| == money
  {
    SpentIsCostTimesCount(cost, BuyForSelection(money, cost, kind, ms).consumed);
  }

  lemma ChargeStep(money: nat, mid: nat, last: nat, first: nat, later: nat, total: nat, c: nat)
    requires mid + c * first == money
    requires last + later * c == mid
    requires total == first + later
    ensures last + total * c == money
  {
  }

  lemma MulSucc(c: nat, n: nat, k: nat)
    ensures c * (k + n) == c * k + c * n
  {
  }

  /**
    When every click in the frame is on a button of the same cost `c`, the
    money that leaves the player is exactly `c` per tower built: no click
    charges without building and none builds without charging.
   */
  lemma {:induction false} HandleEventsCharges(money: nat, events: seq<ButtonEvent>, ms: seq<Marker>, c: nat)
    requires forall j :: 0 <= j < |events| && IsClick(events[j]) ==> events[j].state.cost == c
    ensures HandleEvents(money, events, ms).money + |HandleEvents(money, events, ms).towers| * c == money
    decreases |events|
  {
    if |events| == 0 {
      assert HandleEvents(money, events, ms).towers == [];
    } else {
      assert forall j :: 0 <= j < |events| - 1 ==> events[1..][j] == events[j + 1];
      if IsClick(events[0]) {
        var e := events[0];
        var p := BuyForSelection(money, c, e.kind, ms);
        var rest := HandleEvents(p.money, events[1..], ms);
        var r := HandleEvents(money, events, ms);
        assert r == Purchase(rest.money, Either(p.consumed, rest.consumed), p.towers + rest.towers);
        assert |r.towers| == |p.towers| + |rest.towers|;
        BuyCharges(money, c, e.kind, ms);
        HandleEventsCharges(p.money, events[1..], ms, c);
        ChargeStep(money, p.money, rest.money, |p.towers|, |rest.towers|, |r.towers|, c);
      } else {
        assert HandleEvents(money, events, ms) == HandleEvents(money, events[1..], ms);
        HandleEventsCharges(money, events[1..], ms, c);
      }
    }
  }

  /** The Clicked events of a frame, in order. */
  function Clicks(events: seq<ButtonEvent>): (r: seq<ButtonEvent>)
    ensures |r| <= |events|
    ensures forall j :: 0 <= j < |r| ==> IsClick(r[j])
    decreases |events|
  {
    if |events| == 0 then []
    else if IsClick(events[0]) then [events[0]] + Clicks(events[1..])
    else Clicks(events[1..])
  }

  /** A frame without a click has no clicks to act on. */
  lemma {:induction false} ClicksOfNone(events: seq<ButtonEvent>)
    requires forall j :: 0 <= j < |events| ==> !IsClick(events[j])
    ensures Clicks(events) == []
    decreases |events|
  {
    if |events| > 0 {
      assert forall j :: 0 <= j < |events| - 1 ==> events[1..][j] == events[j + 1];
      ClicksOfNone(events[1..]);
    }
  }

  /** A frame holding exactly one click, at index `k`, filters to that click. */
  lemma {:induction false} ClicksOfOne(events: seq<ButtonEvent>, k: nat)
    requires k < |events| && IsClick(events[k])
    requires forall j :: 0 <= j < |events| && j != k ==> !IsClick(events[j])
    ensures Clicks(events) == [events[k]]
    decreases |events|
  {
    assert forall j :: 0 <= j < |events| - 1 ==> events[1..][j] == events[j + 1];
    if k == 0 {
      ClicksOfNone(events[1..]);
    } else {
      ClicksOfOne(events[1..], k - 1);
    }
  }

  /**
    Only Clicked interactions act: a frame's events have the same effect as
    its clicks alone, whatever hover or release changes arrive with them.
   */
  lemma {:induction false} HandleEventsOnlyClicks(money: nat, events: seq<ButtonEvent>, ms: seq<Marker>)
    ensures HandleEvents(money, events, ms) == HandleEvents(money, Clicks(events), ms)
    decreases |events|
  {
    if |events| > 0 {
      var cs := Clicks(events);
      if IsClick(events[0]) {
        var e := events[0];
        var p := BuyForSelection(money, e.state.cost, e.kind, ms);
        assert cs[0] == e && cs[1..] == Clicks(events[1..]);
        HandleEventsOnlyClicks(p.money, events[1..], ms);
      } else {
        HandleEventsOnlyClicks(money, events[1..], ms);
      }
    }
  }

  /** The markers no click consumed, in their original order. */
  function Remaining(ms: seq<Marker>, consumed: seq<bool>): seq<Marker>
    requires |consumed| == |ms|
    decreases |ms|
  {
    if |ms| == 0 then []
    else (if consumed[0] then [] else [ms[0]]) + Remaining(ms[1..], consumed[1..])
  }

  lemma {:induction false} RemainingMembers(ms: seq<Marker>, consumed: seq<bool>, i: nat)
    requires |consumed| == |ms| && i < |ms|
    ensures !consumed[i] ==> ms[i] in Remaining(ms, consumed)
    decreases |ms|
  {
    if i > 0 {
      RemainingMembers(ms[1..], consumed[1..], i - 1);
    }
  }

  lemma {:induction false} RemainingFromMarkers(ms: seq<Marker>, consumed: seq<bool>, m: Marker)
    requires |consumed| == |ms|
    ensures m in Remaining(ms, consumed) ==> m in ms
    decreases |ms|
  {
    if |ms| > 0 {
      RemainingFromMarkers(ms[1..], consumed[1..], m);
    }
  }

  lemma {:induction false} RemainingAll(ms: seq<Marker>, consumed: seq<bool>)
    requires |consumed| == |ms|
    ensures (forall i :: 0 <= i < |ms| ==> !consumed[i]) ==> Remaining(ms, consumed) == ms
    decreases |ms|
  {
    if |ms| > 0 {
      RemainingAll(ms[1..], consumed[1..]);
    }
  }

  lemma {:induction false} RemainingLength(ms: seq<Marker>, consumed: seq<bool>)
    requires |consumed| == |ms|
    ensures |Remaining(ms, consumed)| == |ms| - TrueCount(consumed)
    decreases |ms|
  {
    if |ms| > 0 {
      RemainingLength(ms[1..], consumed[1..]);
    }
  }

  datatype ClickOutcome = ClickOutcome(player: Player, markers: seq<Marker>, towers: seq<TowerEntity>)

  /**
    The click handler: the player pays for every tower bought, the consumed
    markers are despawned, and the new towers join the world. Health is
    untouched, money never grows, unselected markers always stay, and a frame
    without clicks changes nothing.
   */
  function TowerButtonClicked(p: Player, events: seq<ButtonEvent>, ms: seq<Marker>): (r: ClickOutcome)
    ensures r.player.health == p.health && r.player.money <= p.money
    ensures forall i :: 0 <= i < |ms| && !ms[i].selected ==> ms[i] in r.markers
    ensures forall m :: m in r.markers ==> m in ms
    ensures (forall j :: 0 <= j < |events| ==> !IsClick(events[j])) ==> r == ClickOutcome(p, ms, [])
  {
    var h := HandleEvents(p.money, events, ms);
    var markers := Remaining(ms, h.consumed);
    assert forall i :: 0 <= i < |ms| && !ms[i].selected ==> ms[i] in markers by {
      forall i | 0 <= i < |ms| && !ms[i].selected {
        RemainingMembers(ms, h.consumed, i);
      }
    }
    assert forall m :: m in markers ==> m in ms by {
      forall m | m in markers {
        RemainingFromMarkers(ms, h.consumed, m);
      }
    }
    RemainingAll(ms, h.consumed);
    ClickOutcome(p.(money := h.money), markers, h.towers)
  }

  /** The click handler ignores every event other than a click. */
  lemma ClickedOnlyClicks(p: Player, events: seq<ButtonEvent>, ms: seq<Marker>)
    ensures TowerButtonClicked(p, events, ms) == TowerButtonClicked(p, Clicks(events), ms)
  {
    HandleEventsOnlyClicks(p.money, events, ms);
  }

  /**
    A frame with a single click on a button costing `cost > 0`, with `k`
    selected markers and money `m`: `min(k, m / cost)` towers are bought,
    the money drops by that many costs, and that many markers disappear.
   */
  lemma SingleClick(p: Player, e: ButtonEvent, ms: seq<Marker>)
    requires IsClick(e) && e.state.cost > 0
    ensures var r := TowerButtonClicked(p, [e], ms);
      && |r.towers| == Min(SelectedCount(ms), p.money / e.state.cost)
      && r.player.money == p.money - |r.towers| * e.state.cost
      && |r.markers| == |ms| - |r.towers|
  {
    var b := BuyForSelection(p.money, e.state.cost, e.kind, ms);
    BoughtCount(p.money, e.state.cost, e.kind, ms);
    var none := HandleEvents(b.money, [], ms);
    assert none == Purchase(b.money, Falses(|ms|), []);
    var h := HandleEvents(p.money, [e], ms);
    assert h.towers == b.towers;
    assert h.consumed == b.consumed;
    RemainingLength(ms, h.consumed);
  }

  /**
    A frame whose events hold exactly one click, at index `k`, among any
    number of hover or release changes, buys as that click alone would.
   */
  lemma OneClickAmongOthers(p: Player, events: seq<ButtonEvent>, ms: seq<Marker>, k: nat)
    requires k < |events| && IsClick(events[k]) && events[k].state.cost > 0
    requires forall j :: 0 <= j < |events| && j != k ==> !IsClick(events[j])
    ensures var r := TowerButtonClicked(p, events, ms);
      && |r.towers| == Min(SelectedCount(ms), p.money / events[k].state.cost)
      && r.player.money == p.money - |r.towers| * events[k].state.cost
      && |r.markers| == |ms| - |r.towers|
  {
    ClicksOfOne(events, k);
    ClickedOnlyClicks(p, events, ms);
    SingleClick(p, events[k], ms);
  }

  /**
    With 100 money, a click on an 80-cost button with one selected marker
    leaves 20 money, a tower of the button's kind where the marker stood,
    and no marker. Money exactly equal to the cost still buys (80 of 80
    leaves 0); one short of the cost (80 of 81) buys nothing.
   */
  lemma BuyAtBoundary(kind: TowerType, pos: Vec3)
    ensures var r := TowerButtonClicked(Player(100, 10), [ButtonEvent(Clicked, kind, TowerButtonState(80, true))], [Marker(true, pos)]);
      r.player.money == 20 && r.towers == [SpawnTower(kind, pos)] && r.markers == []
    ensures var r := TowerButtonClicked(Player(80, 10), [ButtonEvent(Clicked, kind, TowerButtonState(81, false))], [Marker(true, pos)]);
      r.player.money == 80 && r.towers == [] && r.markers == [Marker(true, pos)]
    ensures var r := TowerButtonClicked(Player(80, 10), [ButtonEvent(Clicked, kind, TowerButtonState(80, true))], [Marker(true, pos)]);
      r.player.money == 0 && r.towers == [SpawnTower(kind, pos)] && r.markers == []
  {
    var e := ButtonEvent(Clicked, kind, TowerButtonState(80, true));
    var h := HandleEvents(100, [e], [Marker(true, pos)]);
    assert h.consumed == [true];
    assert [Marker(true, pos)][1..] == [] && [true][1..] == [] && [false][1..] == [];
    assert Remaining([Marker(true, pos)], [true]) == [];
    var e' := ButtonEvent(Clicked, kind, TowerButtonState(81, false));
    var h' := HandleEvents(80, [e'], [Marker(true, pos)]);
    assert h'.consumed == [false];
    var h'' := HandleEvents(80, [e], [Marker(true, pos)]);
    assert h''.consumed == [true];
  }
}

=== FILE: seqs.dfy ===
/** Small facts about sequences that the pass-by-pass proofs share. */
module Seqs {

  /** Splitting the first element off a concatenation. */
  lemma TailOfAppend<T>(a: seq<T>, b: seq<T>)
    requires |a| > 0
    ensures (a + b)[0] == a[0] && (a + b)[1..] == a[1..] + b
  {
  }

  lemma AppendAssoc<T>(x: seq<T>, y: seq<T>, z: seq<T>)
    ensures x + (y + z) == (x + y) + z
  {
  }
}

=== FILE: targets.dfy ===
/**
  Targets: the entities towers shoot at. A target carries its Target
  component (speed and waypoint index), its translation and its Health.
 */
module Targets {
  import opened Geometry

  /** `health` is signed: several hits in one frame can drive it below zero. */
  datatype Target = Target(speed: real, pathIndex: nat, pos: Vec3, health: int)

  function Positions(ts: seq<Target>): (ps: seq<Vec3>)
    ensures |ps| == |ts|
    ensures forall i :: 0 <= i < |ts| ==> ps[i] == ts[i].pos
  {
    seq(|ts|, i requires 0 <= i < |ts| => ts[i].pos)
  }

  /** Any health at or below zero counts as dead. */
  predicate Dead(t: Target) {
    t.health <= 0
  }

  function DeadCount(ts: seq<Target>): nat
    decreases |ts|
  {
    if |ts| == 0 then 0 else (if Dead(ts[0]) then 1 else 0) + DeadCount(ts[1..])
  }

  /** The death pass: every dead target is despawned, the rest are kept as they are. */
  function TargetDeath(ts: seq<Target>): (r: seq<Target>)
    ensures |r| == |ts| - DeadCount(ts)
    ensures forall i :: 0 <= i < |r| ==> !Dead(r[i])
    decreases |ts|
  {
    if |ts| == 0 then []
    else (if Dead(ts[0]) then [] else [ts[0]]) + TargetDeath(ts[1..])
  }

  /** The survivors are exactly the targets that are not dead, unchanged. */
  lemma {:induction false} TargetDeathMembers(ts: seq<Target>, t: Target)
    ensures t in TargetDeath(ts) <==> t in ts && !Dead(t)
    decreases |ts|
  {
    if |ts| > 0 {
      TargetDeathMembers(ts[1..], t);
      assert ts == [ts[0]] + ts[1..];
    }
  }

  /** The pass works target by target, so it keeps the survivors in their original order. */
  lemma {:induction false} TargetDeathAppend(a: seq<Target>, b: seq<Target>)
    ensures TargetDeath(a + b) == TargetDeath(a) + TargetDeath(b)
    decreases |a|
  {
    if |a| == 0 {
      assert a + b == b;
    } else {
      assert (a + b)[0] == a[0];
      assert (a + b)[1..] == a[1..] + b;
      TargetDeathAppend(a[1..], b);
    }
  }

  /** A second death pass in the same frame removes nothing more. */
  lemma {:induction false} TargetDeathIdempotent(ts: seq<Target>)
    ensures TargetDeath(TargetDeath(ts)) == TargetDeath(ts)
    decreases |ts|
  {
    if |ts| > 0 {
      TargetDeathIdempotent(ts[1..]);
      var rest := TargetDeath(ts[1..]);
      if !Dead(ts[0]) {
        assert TargetDeath(ts) == [ts[0]] + rest;
        TargetDeathAppend([ts[0]], rest);
        assert [ts[0]][1..] == [];
        assert TargetDeath([ts[0]]) == [ts[0]];
      } else {
        assert TargetDeath(ts) == rest;
      }
    }
  }

  /** The move pass: every target slides along x by `speed * dt`; nothing else changes. */
  function MoveTargets(ts: seq<Target>, dt: real): (r: seq<Target>)
    ensures |r| == |ts|
    ensures forall i :: 0 <= i < |ts| ==>
      && r[i].pos.x == ts[i].pos.x + ts[i].speed * dt
      && r[i].pos.y == ts[i].pos.y && r[i].pos.z == ts[i].pos.z
      && r[i].speed == ts[i].speed && r[i].pathIndex == ts[i].pathIndex
      && r[i].health == ts[i].health
  {
    seq(|ts|, i requires 0 <= i < |ts| =>
      ts[i].(pos := ts[i].pos.(x := ts[i].pos.x + ts[i].speed * dt)))
  }

  lemma MoveTargetsAppend(a: seq<Target>, b: seq<Target>, dt: real)
    ensures MoveTargets(a + b, dt) == MoveTargets(a, dt) + MoveTargets(b, dt)
  {
    var l, r := MoveTargets(a + b, dt), MoveTargets(a, dt) + MoveTargets(b, dt);
    assert |l| == |r|;
    forall i | 0 <= i < |l|
      ensures l[i] == r[i]
    {
      if i < |a| {
        assert (a + b)[i] == a[i];
      } else {
        assert (a + b)[i] == b[i - |a|];
      }
    }
  }

  /** Moving never changes whether a target is dead, so it commutes with the death pass. */
  lemma {:induction false} MoveCommutesWithDeath(ts: seq<Target>, dt: real)
    ensures TargetDeath(MoveTargets(ts, dt)) == MoveTargets(TargetDeath(ts), dt)
    decreases |ts|
  {
    if |ts| > 0 {
      var moved := MoveTargets(ts, dt);
      MoveCommutesWithDeath(ts[1..], dt);
      MoveTargetsAppend([ts[0]], ts[1..], dt);
      assert ts == [ts[0]] + ts[1..];
      assert Dead(moved[0]) == Dead(ts[0]);
      var d := TargetDeath(ts[1..]);
      if Dead(ts[0]) {
        assert TargetDeath(ts) == d;
      } else {
        assert TargetDeath(ts) == [ts[0]] + d;
        MoveTargetsAppend([ts[0]], d, dt);
      }
    }
  }
}

=== FILE: timers.dfy ===
/**
  A once-mode timer, as the bullet lifetime uses it: it accumulates elapsed
  time until it reaches its duration, reports "just finished" on that one
  tick, and stays finished afterwards without ever reporting it again.
 */
module Timers {

  datatype OnceTimer = OnceTimer(duration: real, elapsed: real, finished: bool)

  /** The timer after one tick, and whether it finished on that tick. */
  datatype Ticked = Ticked(timer: OnceTimer, justFinished: bool)

  /** The timers a fresh `Timer::from_seconds(d, TimerMode::Once)` starts as. */
  function NewOnce(duration: real): OnceTimer {
    OnceTimer(duration, 0.0, false)
  }

  /** Elapsed time stays within the duration, and a finished timer has used it all. */
  predicate Valid(t: OnceTimer) {
    0.0 <= t.elapsed <= t.duration && (t.finished ==> t.elapsed == t.duration)
  }

  function TickOnce(t: OnceTimer, dt: real): (r: Ticked)
    requires dt >= 0.0
    ensures r.timer.duration == t.duration
    ensures r.justFinished <==> !t.finished && t.elapsed + dt >= t.duration
    ensures r.timer.finished <==> t.finished || r.justFinished
    ensures t.finished ==> r.timer == t
    ensures Valid(t) ==> Valid(r.timer)
  {
    if t.finished then Ticked(t, false)
    else if t.elapsed + dt >= t.duration then Ticked(OnceTimer(t.duration, t.duration, true), true)
    else Ticked(t.(elapsed := t.elapsed + dt), false)
  }

  predicate NonNegative(dts: seq<real>) {
    forall i :: 0 <= i < |dts| ==> dts[i] >= 0.0
  }

  function Sum(dts: seq<real>): real
    decreases |dts|
  {
    if |dts| == 0 then 0.0 else dts[0] + Sum(dts[1..])
  }

  /** The timer after a run of ticks, and on how many of them it reported finishing. */
  datatype Run = Run(timer: OnceTimer, finishes: nat)

  function TickAll(t: OnceTimer, dts: seq<real>): Run
    requires NonNegative(dts)
    decreases |dts|
  {
    if |dts| == 0 then Run(t, 0)
    else
      var s := TickOnce(t, dts[0]);
      var rest := TickAll(s.timer, dts[1..]);
      Run(rest.timer, rest.finishes + if s.justFinished then 1 else 0)
  }

  lemma {:induction false} SumNonNegative(dts: seq<real>)
    requires NonNegative(dts)
    ensures Sum(dts) >= 0.0
    decreases |dts|
  {
    if |dts| > 0 {
      SumNonNegative(dts[1..]);
    }
  }

  /** A finished timer never reports finishing again. */
  lemma {:induction false} FinishedStaysSilent(t: OnceTimer, dts: seq<real>)
    requires NonNegative(dts)
    requires t.finished
    ensures TickAll(t, dts) == Run(t, 0)
    decreases |dts|
  {
    if |dts| > 0 {
      FinishedStaysSilent(t, dts[1..]);
    }
  }

  /**
    Over any run of ticks a timer that has not yet used up its duration
    reports finishing exactly once if the accumulated time reaches the
    duration, and never otherwise.
   */
  lemma {:induction false} FinishesExactlyWhenDue(t: OnceTimer, dts: seq<real>)
    requires NonNegative(dts)
    requires !t.finished && t.elapsed < t.duration
    ensures TickAll(t, dts).finishes <= 1
    ensures TickAll(t, dts).finishes == 1 <==> t.elapsed + Sum(dts) >= t.duration
    decreases |dts|
  {
    if |dts| > 0 {
      var s := TickOnce(t, dts[0]);
      SumNonNegative(dts[1..]);
      if s.justFinished {
        FinishedStaysSilent(s.timer, dts[1..]);
      } else {
        FinishesExactlyWhenDue(s.timer, dts[1..]);
      }
    }
  }
}

=== FILE: towers.dfy ===
/**
  Towers: target acquisition and firing on the cadence tick, tower spawning,
  and the affordability shading of the tower-purchase buttons.
 */
module Towers {
  import opened Options
  import opened Geometry
  import opened Kinds
  import opened Targets
  import opened Bullets
  import opened Seqs

  /** A tower entity: its kind, its position and its Tower component. */
  datatype TowerEntity = TowerEntity(kind: TowerType, pos: Vec3, tower: Tower)

  /** A new tower of `kind` at `pos`, with that kind's stats from the table. */
  function SpawnTower(kind: TowerType, pos: Vec3): (r: TowerEntity)
    ensures r.kind == kind && r.pos == pos
    ensures r.tower == GetTower(kind)
    ensures r.tower.range == TowerRange
  {
    TowerEntity(kind, pos, GetTower(kind))
  }

  /** Where the tower's bullets appear: its position plus its muzzle offset. */
  function BulletSpawn(t: TowerEntity): Vec3 {
    Add(t.pos, t.tower.bulletOffset)
  }

  /** A target at `p` is a candidate when strictly closer than `range` to the muzzle. */
  predicate InRange(p: Vec3, spawn: Vec3, range: real, dist: Distance) {
    dist(p, spawn) < range
  }

  /**
    Index `i` is the target a tower picks: it is in range, no candidate is
    nearer, and every candidate before it is strictly farther (ties go to the
    first in iteration order).
   */
  predicate IsNearest(ps: seq<Vec3>, spawn: Vec3, range: real, dist: Distance, i: int) {
    && 0 <= i < |ps|
    && InRange(ps[i], spawn, range, dist)
    && (forall j :: 0 <= j < |ps| && InRange(ps[j], spawn, range, dist) ==> dist(ps[i], spawn) <= dist(ps[j], spawn))
    && (forall j :: 0 <= j < i && InRange(ps[j], spawn, range, dist) ==> dist(ps[i], spawn) < dist(ps[j], spawn))
  }

  predicate NoneInRange(ps: seq<Vec3>, spawn: Vec3, range: real, dist: Distance) {
    forall j :: 0 <= j < |ps| ==> !InRange(ps[j], spawn, range, dist)
  }

  /** At most one index satisfies `IsNearest`: the choice is determined. */
  lemma NearestUnique(ps: seq<Vec3>, spawn: Vec3, range: real, dist: Distance, i: int, k: int)
    requires IsNearest(ps, spawn, range, dist, i) && IsNearest(ps, spawn, range, dist, k)
    ensures i == k
  {
  }

  /** Filter to the candidates, then take the first one of minimum distance. */
  function SelectTarget(ps: seq<Vec3>, spawn: Vec3, range: real, dist: Distance): (r: Option<nat>)
    ensures r.Some? ==> IsNearest(ps, spawn, range, dist, r.value)
    ensures r.None? <==> NoneInRange(ps, spawn, range, dist)
    decreases |ps|
  {
    if |ps| == 0 then None
    else
      var rest := SelectTarget(ps[1..], spawn, range, dist);
      if InRange(ps[0], spawn, range, dist)
         && (rest.None? || dist(ps[0], spawn) <= dist(ps[1..][rest.value], spawn))
      then Some(0)
      else if rest.Some? then Some(rest.value + 1)
      else None
  }

  /**
    One tower on one frame. If its cadence timer has just finished and some
    target is in range, it fires one bullet from its muzzle, aimed at the
    nearest target; otherwise it fires nothing.
   */
  function Shoot(t: TowerEntity, timerFinished: bool, targets: seq<Target>, dist: Distance): (r: Option<BulletEntity>)
    ensures r.Some? <==> timerFinished && !NoneInRange(Positions(targets), BulletSpawn(t), t.tower.range, dist)
    ensures r.Some? ==> exists i ::
      && 0 <= i < |targets|
      && IsNearest(Positions(targets), BulletSpawn(t), t.tower.range, dist, i)
      && r.value == Fired(BulletSpawn(t), GetBullet(t.kind, Sub(targets[i].pos, BulletSpawn(t))))
      && Add(r.value.pos, r.value.bullet.direction) == targets[i].pos
  {
    if !timerFinished then None
    else
      var spawn := BulletSpawn(t);
      match SelectTarget(Positions(targets), spawn, t.tower.range, dist)
      case None => None
      case Some(i) => Some(Fired(spawn, GetBullet(t.kind, Sub(targets[i].pos, spawn))))
  }

  /** The bullet one tower fires this frame, as a sequence of zero or one. */
  function ShotOf(t: TowerEntity, timerFinished: bool, targets: seq<Target>, dist: Distance): seq<BulletEntity> {
    match Shoot(t, timerFinished, targets, dist)
    case None => []
    case Some(b) => [b]
  }

  /** How many of the towers fire on this frame. */
  function ShotCount(towers: seq<TowerEntity>, timerFinished: seq<bool>, targets: seq<Target>, dist: Distance): nat
    requires |timerFinished| == |towers|
    decreases |towers|
  {
    if |towers| == 0 then 0
    else
      var first := if Shoot(towers[0], timerFinished[0], targets, dist).Some? then 1 else 0;
      first + ShotCount(towers[1..], timerFinished[1..], targets, dist)
  }

  /**
    The firing pass over all towers in order; `timerFinished[i]` says whether
    tower `i`'s cadence timer finished on this frame. Targets are only read.
   */
  function TowerShooting(towers: seq<TowerEntity>, timerFinished: seq<bool>, targets: seq<Target>, dist: Distance): (r: seq<BulletEntity>)
    requires |timerFinished| == |towers|
    ensures |r| == ShotCount(towers, timerFinished, targets, dist) <= |towers|
    ensures forall b :: b in r ==>
      exists i :: 0 <= i < |towers| && Shoot(towers[i], timerFinished[i], targets, dist) == Some(b)
    ensures forall i :: 0 <= i < |towers| && Shoot(towers[i], timerFinished[i], targets, dist).Some? ==>
      Shoot(towers[i], timerFinished[i], targets, dist).value in r
    decreases |towers|
  {
    if |towers| == 0 then []
    else
      var rest := TowerShooting(towers[1..], timerFinished[1..], targets, dist);
      var head := ShotOf(towers[0], timerFinished[0], targets, dist);
      assert forall i :: 1 <= i < |towers| ==>
        towers[1..][i - 1] == towers[i] && timerFinished[1..][i - 1] == timerFinished[i];
      assert forall b :: b in head + rest ==>
        exists i :: 0 <= i < |towers| && Shoot(towers[i], timerFinished[i], targets, dist) == Some(b) by {
        forall b | b in head + rest
          ensures exists i :: 0 <= i < |towers| && Shoot(towers[i], timerFinished[i], targets, dist) == Some(b)
        {
          if b !in head {
            var k :| 0 <= k < |towers| - 1 && Shoot(towers[1..][k], timerFinished[1..][k], targets, dist) == Some(b);
            assert Shoot(towers[k + 1], timerFinished[k + 1], targets, dist) == Some(b);
          }
        }
      }
      assert forall i :: 0 <= i < |towers| && Shoot(towers[i], timerFinished[i], targets, dist).Some? ==>
        Shoot(towers[i], timerFinished[i], targets, dist).value in head + rest by {
        forall i | 0 <= i < |towers| && Shoot(towers[i], timerFinished[i], targets, dist).Some?
          ensures Shoot(towers[i], timerFinished[i], targets, dist).value in head + rest
        {
          if i == 0 {
            assert head == [Shoot(towers[0], timerFinished[0], targets, dist).value];
          } else {
            assert Shoot(towers[1..][i - 1], timerFinished[1..][i - 1], targets, dist).value in rest;
          }
        }
      }
      head + rest
  }

  /** The pass fires the first tower, then goes on with the rest. */
  lemma TowerShootingUnfold(towers: seq<TowerEntity>, fs: seq<bool>, targets: seq<Target>, dist: Distance)
    requires |fs| == |towers| > 0
    ensures TowerShooting(towers, fs, targets, dist)
         == ShotOf(towers[0], fs[0], targets, dist) + TowerShooting(towers[1..], fs[1..], targets, dist)
  {
  }

  /**
    Each tower fires on its own: the pass over two groups of towers is the
    pass over each in turn. With the one-tower case this fixes the result to
    the towers' shots in tower order, one bullet per tower that fires.
   */
  lemma {:induction false} TowerShootingAppend(a: seq<TowerEntity>, fa: seq<bool>, b: seq<TowerEntity>, fb: seq<bool>, targets: seq<Target>, dist: Distance)
    requires |fa| == |a| && |fb| == |b|
    ensures TowerShooting(a + b, fa + fb, targets, dist)
         == TowerShooting(a, fa, targets, dist) + TowerShooting(b, fb, targets, dist)
    decreases |a|
  {
    if |a| == 0 {
      assert a + b == b && fa + fb == fb;
    } else {
      TailOfAppend(a, b);
      TailOfAppend(fa, fb);
      TowerShootingUnfold(a + b, fa + fb, targets, dist);
      TowerShootingUnfold(a, fa, targets, dist);
      TowerShootingAppend(a[1..], fa[1..], b, fb, targets, dist);
      AppendAssoc(ShotOf(a[0], fa[0], targets, dist), TowerShooting(a[1..], fa[1..], targets, dist), TowerShooting(b, fb, targets, dist));
    }
  }

  /** The button tint: white when affordable, dark grey otherwise. */
  datatype Tint = White | DarkGray

  datatype TowerButtonState = TowerButtonState(cost: nat, affordable: bool)

  /** A tower-purchase button: the kind it buys, its state and its tint. */
  datatype TowerButton = TowerButton(kind: TowerType, state: TowerButtonState, tint: Tint)

  function Shade(money: nat, b: TowerButton): TowerButton {
    if money >= b.state.cost then b.(state := b.state.(affordable := true), tint := White)
    else b.(state := b.state.(affordable := false), tint := DarkGray)
  }

  /** Every button's affordable flag and tint are recomputed from the current money. */
  function GreyTowerButtons(money: nat, bs: seq<TowerButton>): (r: seq<TowerButton>)
    ensures |r| == |bs|
    ensures forall i :: 0 <= i < |bs| ==>
      && r[i].kind == bs[i].kind && r[i].state.cost == bs[i].state.cost
      && (r[i].state.affordable <==> money >= bs[i].state.cost)
      && (r[i].tint == White <==> r[i].state.affordable)
  {
    seq(|bs|, i requires 0 <= i < |bs| => Shade(money, bs[i]))
  }

  /** Shading twice with the same money is the same as shading once. */
  lemma GreyIdempotent(money: nat, bs: seq<TowerButton>)
    ensures GreyTowerButtons(money, GreyTowerButtons(money, bs)) == GreyTowerButtons(money, bs)
  {
    var once := GreyTowerButtons(money, bs);
    var twice := GreyTowerButtons(money, once);
    forall i | 0 <= i < |bs|
      ensures twice[i] == once[i]
    {
    }
  }

  /** The shading depends only on the buttons' kinds and costs, not on their previous flags. */
  lemma GreyForgetsPrevious(money: nat, bs: seq<TowerButton>, cs: seq<TowerButton>)
    requires |bs| == |cs|
    requires forall i :: 0 <= i < |bs| ==> bs[i].kind == cs[i].kind && bs[i].state.cost == cs[i].state.cost
    ensures GreyTowerButtons(money, bs) == GreyTowerButtons(money, cs)
  {
    var l, r := GreyTowerButtons(money, bs), GreyTowerButtons(money, cs);
    forall i | 0 <= i < |bs|
      ensures l[i] == r[i]
    {
    }
  }
}

=== FILE: world.dfy ===
/**
  One frame of the game over a world record. The engine runs these passes
  without a fixed order among them; the model fixes one: targets move, towers
  fire, bullets collide and age, dead and leaked targets go, kill rewards
  are paid, clicks buy towers, and the tower menu is shaded and toggled.
  Spawns and despawns requested during the frame take effect at its end, so
  every pass sees the entities the frame started with.
 */
module World {
  import opened Options
  import opened Geometry
  import opened Kinds
  import opened Targets
  import opened Bullets
  import opened Towers
  import opened Players
  import opened Purchase

  datatype World = World(
    player: Player,
    towers: seq<TowerEntity>,
    targets: seq<Target>,
    bullets: seq<BulletEntity>,
    markers: seq<Marker>,
    ui: seq<UiRoot>)

  /**
    What the engine supplies for one frame: the elapsed seconds, which tower
    cadence timers finished, how many death events arrived, and the button
    interactions that changed.
   */
  datatype FrameInput = FrameInput(
    dt: real,
    towerTimers: seq<bool>,
    deathEvents: nat,
    buttonEvents: seq<ButtonEvent>)

  /** The world when gameplay starts: a fresh player, and no towers, bullets or menu yet. */
  function StartWorld(targets: seq<Target>, markers: seq<Marker>): (w: World)
    ensures w.player == SpawnPlayer()
    ensures w.towers == [] && w.bullets == [] && w.ui == []
  {
    World(SpawnPlayer(), [], targets, [], markers, [])
  }

  function ShadeRoots(money: nat, roots: seq<UiRoot>): (r: seq<UiRoot>)
    ensures |r| == |roots|
    ensures forall i :: 0 <= i < |roots| ==> r[i].buttons == GreyTowerButtons(money, roots[i].buttons)
  {
    seq(|roots|, i requires 0 <= i < |roots| => UiRoot(GreyTowerButtons(money, roots[i].buttons)))
  }

  /**
    One gameplay frame. Towers aim at the targets' global transforms, which
    the engine propagates only after every gameplay pass, so they see the
    positions the frame started with. Collisions read the targets' local
    transforms and so see them after this frame's move. The frame aborts
    exactly when it starts with more than one menu root.
   */
  function Frame(w: World, input: FrameInput, pathLen: nat, dist: Distance): (r: Result<World, UiError>)
    requires input.dt >= 0.0 && |input.towerTimers| == |w.towers|
    ensures r.Err? <==> |w.ui| > 1
    ensures r.Ok? ==> |r.value.ui| <= 1 && (|r.value.ui| == 1 <==> AnySelected(w.markers))
    ensures r.Ok? ==> |w.towers| <= |r.value.towers| && r.value.towers[..|w.towers|] == w.towers
    ensures r.Ok? ==> |r.value.targets| <= |w.targets| && |r.value.bullets| <= |w.bullets| + |w.towers|
    ensures r.Ok? ==> r.value.player.health <= w.player.health
    ensures r.Ok? ==> r.value.player.money <= w.player.money + KillReward * input.deathEvents
  {
    var moved := MoveTargets(w.targets, input.dt);
    var fired := TowerShooting(w.towers, input.towerTimers, w.targets, dist);
    var hit := BulletCollision(w.bullets, moved, dist);
    var aged := BulletDespawn(hit.bullets, input.dt);
    var hurt := HurtPlayer(w.player, hit.targets, pathLen);
    var survivors := TargetDeath(hurt.targets);
    var paid := GiveMoneyOnKill(hurt.player, input.deathEvents);
    var click := TowerButtonClicked(paid, input.buttonEvents, w.markers);
    assert |aged + fired| <= |w.bullets| + |w.towers| by {
      assert |hit.bullets| <= |w.bullets|;
    }
    var shaded := ShadeRoots(click.player.money, w.ui);
    match CreateUiOnSelection(shaded, w.markers)
    case Err(e) => Err(e)
    case Ok(ui) =>
      Ok(World(click.player, w.towers + click.towers, survivors, aged + fired, click.markers, ui))
  }

  /**
    At most one menu root is an invariant of the frame: from a world with at
    most one root the frame never aborts and leaves at most one root. The
    start world has none, so the "too many roots" abort is unreachable.
   */
  lemma FrameKeepsOneRoot(w: World, input: FrameInput, pathLen: nat, dist: Distance)
    requires input.dt >= 0.0 && |input.towerTimers| == |w.towers|
    requires |w.ui| <= 1
    ensures Frame(w, input, pathLen, dist).Ok?
    ensures |Frame(w, input, pathLen, dist).value.ui| <= 1
  {
  }

  /**
    Towers are never removed: the frame only appends the towers bought.
    Health never rises, and no target survives the frame dead or leaked.
   */
  lemma FrameMonotone(w: World, input: FrameInput, pathLen: nat, dist: Distance)
    requires input.dt >= 0.0 && |input.towerTimers| == |w.towers|
    ensures Frame(w, input, pathLen, dist).Ok? ==>
      var w' := Frame(w, input, pathLen, dist).value;
      && w'.towers[..|w.towers|] == w.towers
      && w'.player.health <= w.player.health
      && forall i :: 0 <= i < |w'.targets| ==> !Dead(w'.targets[i])
  {
  }

  /**
    A menu that stays open through the frame ends it with every button's
    affordability matching the money the player ends the frame with.
   */
  lemma FrameShadesOpenMenu(w: World, input: FrameInput, pathLen: nat, dist: Distance)
    requires input.dt >= 0.0 && |input.towerTimers| == |w.towers|
    requires |w.ui| == 1 && AnySelected(w.markers)
    ensures Frame(w, input, pathLen, dist).Ok?
    ensures var w' := Frame(w, input, pathLen, dist).value;
      && |w'.ui| == 1
      && |w'.ui[0].buttons| == |w.ui[0].buttons|
      && forall i :: 0 <= i < |w'.ui[0].buttons| ==>
           (w'.ui[0].buttons[i].state.affordable <==> w'.player.money >= w'.ui[0].buttons[i].state.cost)
  {
  }

  /**
    The engine may also run the shading before the click handler on the same
    frame. Shading a Potato button at 100 money marks it affordable; a click
    on it then spends 80, and the button still reads affordable although the
    20 left no longer covers its cost. The flag is corrected on the next
    frame's shading.
   */
  lemma ShadeBeforeClickIsStale(pos: Vec3)
    ensures var b := GreyTowerButtons(100, [TowerButton(Potato, TowerButtonState(80, false), DarkGray)]);
      var c := TowerButtonClicked(Player(100, 10), [ButtonEvent(Clicked, Potato, b[0].state)], [Marker(true, pos)]);
      && b[0].state.affordable
      && c.player.money == 20
      && c.player.money < b[0].state.cost
  {
    var b := GreyTowerButtons(100, [TowerButton(Potato, TowerButtonState(80, false), DarkGray)]);
    assert b[0].state == TowerButtonState(80, true);
    BuyAtBoundary(Potato, pos);
  }
}
